=== FILE: README.md ===
# dragonshell, modelled in Dafny

dragonshell is a small interactive Unix shell. It reads a line, cuts off the
newline, and splits the line into tokens on the caller's delimiters. It then
either runs one of the built-ins (`cd`, `pwd`, `exit`) or launches an external
program. An external command may carry `<` and `>` redirects, one `|` pipe
between two commands, and a trailing `&` that sends it to the single
background-job slot.

This project models that core as pure functions over an immutable process
state `Process.Proc`. The state holds:

- the descriptor table, as a map from descriptor number to what it refers to;
- the working directory;
- the background-job slot (`bg_proc_exists`, `bg_child_pid`);
- a trace of observable events: printed lines, `perror` diagnostics, signal
  resets, `waitpid` calls, `close` calls and `kill` calls;
- whether the process is still running, has exited with a code, or has been
  replaced by `execve` (with the argument vector and the empty environment it is given).

The operating system is not computed. Its answers for one input line arrive
as a `Process.Env` value:

- which `open` and `pipe` calls succeed, and with which descriptors;
- what each `fork` returns, in the C convention: 0 in the child, the child's
  pid in the parent, negative on failure;
- whether `/dev/null` opens and whether `execve` succeeds;
- which paths `chdir` accepts;
- whether `kill` and `waitpid` succeed.

`dup2` and `close` are decided by the descriptor table itself. Each fails
exactly when its descriptor is not open.

Modules:

- `ShellIo` (`shellio.c`, `constants.h`): the ErrCode values and their
  messages, the newline trim, the strtok tokenizer, and the decimal rendering
  used by `printf("%d")`.
- `Process`: the process state, the OS answers, and the primitive effects
  `open`, `dup2`, `close` and `log_error_msg`.
- `Planner` (`externals.c`, `parse_external_request`): the scan over the
  tokens. The NULLs the C code writes into the token array become a set of cut
  indices. An argument vector is the run of tokens from a start index up to the
  next cut.
- `Launcher` (`externals.c`): `exec_program`, `child_exec_cmd`,
  `parent_cleanup_after_exec`, and the launch step of `parse_external_request`.
- `Internals` (`internals.c`): `handle_request`, `change_dir`, the effect of
  `print_working_dir`, and `exit_shell`.

## Model

| member | source | states |
|---|---|---|
| `ShellIo.ErrorLines` | shellio.c:55-74 | `EC_SUCCESS` prints nothing, and it is the only code that prints nothing. Each of the three other defined codes prints exactly one line starting with "dragonshell: ". Any other value prints two lines, the first with that prefix. |
| `ShellIo.ErrorLinesIdentifyCode` | shellio.c:61-72 | The messages of the defined codes are pairwise distinct, so a printed line identifies its code. The unknown-code line matches none of them. |
| `Process.LogError` | shellio.c:55-74 | The code's lines are appended to the trace as printed lines, in order, and nothing else changes. `EC_SUCCESS` leaves the process untouched. |
| `ShellIo.TrimNewline` | shellio.c:21 | The result is a prefix of the line with no newline in it. It ends exactly at the first newline, and a line without a newline is returned whole. |
| `ShellIo.TrimNewlineIdempotent` | shellio.c:21 | Trimming an already trimmed line changes nothing. |
| `ShellIo.StrTok` | shellio.c:39-44 | One strtok call returns nothing exactly when only delimiters remain. Otherwise it returns a non-empty, delimiter-free token and moves strictly forward to a valid resume point. |
| `ShellIo.RunsAtResumePoint` | shellio.c:39-44 | From a resume point, one strtok call yields exactly the next maximal run of non-delimiters. |
| `ShellIo.Tokenize` | shellio.c:36-47 | The tokens are exactly the maximal delimiter-free runs of the line, in order (the reference split `Runs`). The returned count is their number, and every token is non-empty and delimiter-free. |
| `ShellIo.RunsWellFormed` | shellio.c:36-47 | Every token of the reference split is non-empty and contains no delimiter. |
| `ShellIo.RunsEmptyIffAllDelimiters` | shellio.c:36-47 | A line yields zero tokens if and only if it consists of delimiters only. |
| `ShellIo.FormatIntRoundTrip` | externals.c:219 | The decimal text printed for a pid reads back as that pid, negative values included. |
| `Planner.Step` | externals.c:41-79 | At an operator index, the index is cut; a pipe also records argv2's position. `<` and `>` set their descriptor to the opened file, or back to the standard descriptor when `open` fails. A successful `pipe` sets both descriptors to its ends; a failed one sets neither. The table changes exactly by the entries a successful open or pipe produces, and a non-operator token changes nothing at all. A success adds no event, every failure adds exactly its own perror, and nothing outside the table and trace changes. |
| `Planner.ScanCuts` | externals.c:39-80 | The loop cuts exactly at the operators it recognises: indices 1 to argc-2, so an operator in first or last position is an ordinary argument. |
| `Planner.ScanPipe` | externals.c:65-79 | argv2 ends up just after the last recognised pipe. With no pipe it is unchanged. |
| `Planner.ScanFd` | externals.c:41-79 | For each direction, the last token that assigns the descriptor wins. With no assigning token the descriptor keeps its value. |
| `Planner.ScanFrom` | externals.c:39-80 | The loop changes only the descriptor table and the trace. It only appends to the trace and only adds descriptors to the table. It never removes a NULL already written and never forgets a recorded pipe. A stretch with no recognised operator changes nothing at all. |
| `Planner.ScanKeepsEntry` | externals.c:39-80 | A table entry that no later successful open or pipe produces survives the loop unchanged. |
| `Planner.ScanOpenedFile` | externals.c:41-64 | Take a direction whose last assignment is a redirect with a successful open. If no later open or pipe reuses that descriptor number, the loop ends with that descriptor in that direction, naming the redirect's file with its flags. |
| `Planner.ScanLinePipe` | externals.c:65-88 | argv2 differs from argv if and only if some pipe is recognised, and then it follows the last one. |
| `Planner.PlanRequest` | externals.c:30-101 | The line is a background request if and only if it has at least two tokens and the last is "&". In that case argc is decremented. Without a pipe there is one launch with the scanned descriptors and the background flag. With a pipe there are two foreground launches: the left one reads stdin and writes `outfile_fd`; the right one reads `infile_fd` and writes stdout. A line with no recognised operator leaves the process exactly as it was. |
| `Planner.PlanCuts` | externals.c:39-86 | A NULL is written at every recognised operator and over a trailing "&", and nowhere else. Index 0 is never cut. |
| `Planner.PlanPrimary` | externals.c:82-91 | The first command's vector is the tokens before the first NULL. It is non-empty for a non-empty line, contains no recognised operator, and never includes the trailing "&". |
| `Planner.PlanSecondary` | externals.c:65-99 | A second command exists if and only if a pipe is recognised. Its vector runs from just after the last pipe to the next NULL. |
| `Planner.PlanOpenedFile` | externals.c:41-64 | The descriptor planned for a direction names the file of the last redirect in that direction, opened with that redirect's flags, when the open succeeded and no later open or pipe got the same number. |
| `Planner.PlanDescriptors` | externals.c:34-79 | After the scan, `infile_fd` and `outfile_fd` each come from the last token that assigns them, or keep their standard value when no token does. |
| `Planner.RedirectAfterPipeBypassesPipe` | externals.c:53-99 | Take a working pipe followed by a `>` that is the last output assignment. The left command writes to the `>` target, not into the pipe, and the right command writes to stdout. |
| `Launcher.Wire` | externals.c:162-171 | After a successful `dup2`, the standard slot refers to what the descriptor referred to. The original is closed unless it already was the slot, and no other descriptor changes. A failed `dup2` adds only its perror. |
| `Launcher.WireChild` | externals.c:161-188 | The child's wiring touches only the descriptor table and the trace. A missing input descriptor is reported first, as the input-redirect `dup2` failure. |
| `Launcher.HideOutput` | externals.c:173-188 | A background child opens `/dev/null`; a failed open is reported first. If the output is already redirected, the new descriptor only joins the table and stays open. Otherwise stdout is pointed at `/dev/null` and the extra descriptor is closed. |
| `Launcher.ChildWiring` | externals.c:161-188 | stdin ends up referring to the input resource. stdout ends up referring to the output resource, or to `/dev/null` for a background job that would otherwise write to the terminal. Each non-standard original is closed, unless its number was handed out again to the `/dev/null` a background job keeps when its output is redirected; that kept descriptor is always in the table. |
| `Launcher.BackgroundRedirectsReuseNumber` | externals.c:161-188 | For `prog < in > out &`, with in on 3 and out on 4 and `/dev/null` reopened as 3, the child's table is exactly stdin = in, stdout = out, 2 inherited, and 3 = `/dev/null`. |
| `Launcher.ChildExec` | externals.c:154-195 | The child never continues as a shell. It is either replaced by the program with exactly this argv and an empty environment, or it prints "Command not found" as its last event and exits with status 1. |
| `Launcher.CheckedClose` | externals.c:229-238 | An open descriptor is removed and a close is recorded. Closing a descriptor that is not open reports the given perror instead. |
| `Launcher.RegisterBackground` | externals.c:213-220 | The single job slot is overwritten with the new pid, whatever it held, and the notice carrying that pid is printed. No wait or close happens. |
| `Launcher.WaitAndClose` | externals.c:222-239 | The trace gains exactly the wait for this pid, then one report for the input descriptor and then one for the output descriptor, each skipped when it is the standard slot. A report is a close when the descriptor is open, and otherwise the matching `close()` perror; an output descriptor equal to the input one is already closed. Exactly the non-standard descriptors leave the table, and every other entry keeps its value. |
| `Launcher.ParentCleanup` | externals.c:208-240 | A background child takes the job slot, the table is untouched, and only the notice is printed. For a foreground child the trace gains exactly the wait and then the input and output close reports, in that order. Only the non-standard descriptors leave the table, every other entry keeps its value, and the slot is unchanged. |
| `Launcher.ResetSignals` | externals.c:126-127 | Exactly two events are added, SIGINT then SIGTSTP reset to their default disposition, and nothing else changes. |
| `Launcher.ExecProgram` | externals.c:113-140 | The working directory is kept and the trace only grows. A fork result of 0 means the process no longer runs as the shell, and any other result keeps the shell's status. |
| `Launcher.ForkFailureRunsNothing` | externals.c:135-139 | A failed fork changes nothing but the trace, adds only diagnostics, and ends with "fork() failed". |
| `Launcher.ForkParentSupervises` | externals.c:130-239 | After a successful fork, the trace is exactly the argc diagnostic, if any, followed by the cleanup. For a background launch the cleanup takes the job slot, keeps the table, and adds only the notice. For a foreground launch it adds only the wait for its own child and the close reports, in order, removes only the non-standard descriptors, keeps every other entry, and leaves the slot unchanged. |
| `Launcher.ForkChildNeverReturns` | externals.c:122-129 | In the child, SIGINT and then SIGTSTP are reset first. The child then ends either replaced by the program or exited with status 1. |
| `Launcher.RunLaunches` | externals.c:88-100 | The second launch matters only in the shell. If either fork lands in a child, the result no longer runs as the shell; if every fork returns to the shell, the status is unchanged. |
| `Launcher.ExternalRequest` | externals.c:30-101 | Planning and launching keep the working directory and only extend the trace. A first fork of 0 leaves a child, not the shell; two non-zero fork results keep the shell's status. |
| `Launcher.PipelineIsForeground` | externals.c:93-100 | A pipeline never changes the job slot, even when the line ends in "&". |
| `Launcher.PipelineWaitsInOrder` | externals.c:95-99 | When both forks succeed, the shell waits for the left command before the right one. |
| `Launcher.PlainCommandSupervised` | externals.c:88-92 | Without a pipe, a background command takes the job slot. A foreground command is waited for and leaves the slot alone. |
| `Internals.RouteOf` | internals.c:47-73 | An empty line does nothing. An exact first token "cd", "pwd" or "exit" selects that built-in. Every other first token is an external command. Each direction of each case is stated. |
| `Internals.ChangeDirectory` | internals.c:82-88 | A path `chdir` accepts becomes the working directory and nothing is printed. Any other path prints the not-found message and leaves everything else as it was. |
| `Internals.ExitShell` | internals.c:108-120 | The shell always exits with status 0. With an empty slot the trace is unchanged. With a job, a delivered SIGTERM goes to exactly the job in the slot and is followed by a wait for that job. The waitpid perror follows only when the wait fails. An undelivered SIGTERM only reports the kill failure, with no wait. |
| `Internals.HandleRequest` | internals.c:47-74 | Each route leads to its handler. `cd` without an argument prints the no-argument message. `pwd` prints the working directory. `exit` terminates, and anything else goes to the external planner. |
| `Internals.BuiltinsLaunchNothing` | internals.c:52-68 | The built-ins never touch the descriptor table or the job slot. Only `exit` changes the run status or waits for a process. |
| `Internals.CdIgnoresExtraArguments` | internals.c:54-57 | `cd` reads only its first argument, so tokens after it make no difference. |
| `Internals.ExitAlwaysTerminates` | internals.c:65-68 | `exit` always ends the shell with status 0, and with no job it adds nothing to the trace. |

## Left out

- Real operating-system behaviour is not modelled. `open`, `pipe`, `fork`, `execve`, `chdir`, `kill`, `waitpid` and the `/dev/null` open are parameters in `Process.Env`. `dup2` and `close` are decided by the modelled descriptor table.
- Concurrency is not modelled. Child and parent are two outcomes of one fork result, not interleaved processes. The pipe buffering the left command's output for the right one is likewise not modelled.
- Signal handling is left out. `assign_sighandler` (internals.c:30-37) and the handlers are not modelled; the child's resets appear only as trace events.
- `print_working_dir` is modelled only as printing the model's working directory. A failing `getcwd` is not modelled.
- The input side of `display_prompt` is left out: the prompt text, `fgets` and the `LINE_LENGTH` bound. Only the newline trim is modelled, on a whole line.
- The caller of `tokenize` and `handle_request` is not part of this model (dragonshell.c holds only an empty `main`). The delimiter set and the capacity of the token array are therefore parameters or unbounded.
- Input lines are taken to contain no NUL character. C's `strcspn` and `strtok` stop at the first `'\0'` that `fgets` may store, while a Dafny string treats it as an ordinary character.
- stdio buffering is not modelled. Printed lines appear in the trace in program order, and output still buffered when `_exit` runs is not distinguished.
- The caller's token array is taken to be NULL-terminated after its last token. A vector that reaches the end of the tokens therefore ends there.
- The `/dev/null` descriptor opened by a background child whose output is already redirected stays open. The model keeps that descriptor in the child's table, as the code does.
- In the shell, a background job's redirect descriptors are not closed, because the code closes them only after a foreground wait. `Launcher.ForkParentSupervises` states this: the table is unchanged.
- `execve` with an empty argument vector is modelled as failing, like any other failed `execve`.
- Launcher.ChildWiring: stated only under `Launcher.Wirable`. Both descriptors must be open and distinct, the input must not be descriptor 1, and the output must not be descriptor 0. A `/dev/null` descriptor must be above 1 and either new or one of the two descriptors the child has just closed. When the two descriptors coincide, or the input is 1, or the output is 0, the C code's closes undo its own `dup2`s. A `/dev/null` descriptor still in use is not an answer `open` can give. The effect on the trace is stated for every input by `Launcher.WireChild`.
- Launcher.ExecProgram: its own contract states only the trace, the working directory and the status. The three fork outcomes are stated by `ForkFailureRunsNothing`, `ForkParentSupervises` and `ForkChildNeverReturns`.
- Launcher.ExternalRequest: its own contract states only the trace, the working directory and the status. The job-slot and wait outcomes are stated by `PipelineIsForeground`, `PipelineWaitsInOrder` and `PlainCommandSupervised`.
- ShellIo.ErrorLines: states that the second line of the unknown-code message exists, but not that it lacks the "dragonshell: " prefix.

=== FILE: internals.dfy ===
/** The built-in side of the shell (internals.c): the request dispatcher,
    change_dir, print_working_dir's effect, and exit_shell. */
module Internals {
  import opened Wrappers
  import opened Process
  import ShellIo
  import Planner
  import Launcher

  /** Where a line goes, decided by exact comparison of its first token. */
  datatype Route = NoOp | ChangeDir | PrintWorkingDir | Exit | External

  function RouteOf(toks: seq<string>): (r: Route)
    ensures r == NoOp <==> |toks| == 0
    ensures r == ChangeDir <==> |toks| > 0 && toks[0] == "cd"
    ensures r == PrintWorkingDir <==> |toks| > 0 && toks[0] == "pwd"
    ensures r == Exit <==> |toks| > 0 && toks[0] == "exit"
    ensures r == External <==> |toks| > 0 && toks[0] != "cd" && toks[0] != "pwd" && toks[0] != "exit"
  {
    if |toks| == 0 then NoOp
    else if toks[0] == "cd" then ChangeDir
    else if toks[0] == "pwd" then PrintWorkingDir
    else if toks[0] == "exit" then Exit
    else External
  }

  /** change_dir: a path chdir accepts becomes the working directory and
      nothing is printed; any other path prints the not-found message and
      leaves the directory as it was. */
  function ChangeDirectory(p: Proc, target: string, dirs: map<string, string>): (p': Proc)
    ensures target in dirs ==> p' == p.(cwd := dirs[target])
    ensures target !in dirs ==> p' == p.(trace := p.trace + [Printed(ShellIo.CdPathNotFoundLine)])
  {
    if target in dirs then p.(cwd := dirs[target])
    else
      assert ShellIo.ErrorLines(ShellIo.EcCdPathNotFound) == [ShellIo.CdPathNotFoundLine];
      LogError(p, ShellIo.EcCdPathNotFound)
  }

  /** exit_shell: a job in the slot is sent SIGTERM, and waited for only if
      the signal was delivered; the shell then exits with status 0. */
  function ExitShell(p: Proc, env: Env): (p': Proc)
    ensures p'.status == Exited(0)
    ensures p' == p.(trace := p'.trace, status := Exited(0))
    ensures p.trace <= p'.trace
    ensures !p.bgExists ==> p'.trace == p.trace
    ensures p.bgExists && env.killOk ==>
              |p'.trace| >= |p.trace| + 2 &&
              p'.trace[|p.trace|] == Killed(p.bgPid, SigTerm) && p'.trace[|p.trace| + 1] == Waited(p.bgPid)
    ensures p.bgExists && !env.killOk ==> p'.trace == p.trace + [Perror("kill() failed (terminating children)")]
    ensures p.bgExists && env.killOk ==>
              p'.trace == p.trace + [Killed(p.bgPid, SigTerm), Waited(p.bgPid)] +
                          (if env.waitOk then [] else [Perror("waitpid() failed (waiting for child to die)")])
  {
    var p1 :=
      if !p.bgExists then p
      else if !env.killOk then Emit(p, Perror("kill() failed (terminating children)"))
      else
        var q := Emit(Emit(p, Killed(p.bgPid, SigTerm)), Waited(p.bgPid));
        if env.waitOk then q else Emit(q, Perror("waitpid() failed (waiting for child to die)"));
    p1.(status := Exited(0))
  }

  /** handle_request. The pwd branch prints the working directory. */
  function HandleRequest(p: Proc, toks: seq<string>, env: Env): (p': Proc)
    ensures RouteOf(toks) == NoOp ==> p' == p
    ensures RouteOf(toks) == ChangeDir && |toks| < 2 ==> p' == p.(trace := p.trace + [Printed(ShellIo.CdNoArgsLine)])
    ensures RouteOf(toks) == ChangeDir && |toks| >= 2 ==> p' == ChangeDirectory(p, toks[1], env.dirs)
    ensures RouteOf(toks) == PrintWorkingDir ==> p' == p.(trace := p.trace + [Printed(p.cwd)])
    ensures RouteOf(toks) == Exit ==> p' == ExitShell(p, env)
    ensures RouteOf(toks) == External ==> p' == Launcher.ExternalRequest(p, toks, env)
  {
    match RouteOf(toks)
    case NoOp => p
    case ChangeDir =>
      if |toks| < 2 then
        assert ShellIo.ErrorLines(ShellIo.EcCdNoArgs) == [ShellIo.CdNoArgsLine];
        LogError(p, ShellIo.EcCdNoArgs)
      else ChangeDirectory(p, toks[1], env.dirs)
    case PrintWorkingDir => Emit(p, Printed(p.cwd))
    case Exit => ExitShell(p, env)
    case External => Launcher.ExternalRequest(p, toks, env)
  }

  /** Only the external route can launch anything: the built-ins leave the
      descriptor table and the job slot alone, and only exit stops the
      shell. */
  lemma BuiltinsLaunchNothing(p: Proc, toks: seq<string>, env: Env)
    requires RouteOf(toks) != External
    ensures HandleRequest(p, toks, env).fds == p.fds
    ensures HandleRequest(p, toks, env).bgExists == p.bgExists
    ensures HandleRequest(p, toks, env).bgPid == p.bgPid
    ensures HandleRequest(p, toks, env).status == if RouteOf(toks) == Exit then Exited(0) else p.status
    ensures forall e :: e in NewEvents(p, HandleRequest(p, toks, env)) ==> !e.Waited? || RouteOf(toks) == Exit
  {
  }

  /** cd reads only its first argument: extra tokens change nothing. */
  lemma CdIgnoresExtraArguments(p: Proc, toks: seq<string>, env: Env)
    requires |toks| >= 2 && toks[0] == "cd"
    ensures HandleRequest(p, toks, env) == HandleRequest(p, toks[..2], env)
  {
  }

  /** After exit the shell is no longer running, whatever was in the slot. */
  lemma ExitAlwaysTerminates(p: Proc, toks: seq<string>, env: Env)
    requires |toks| > 0 && toks[0] == "exit"
    ensures HandleRequest(p, toks, env).status == Exited(0)
    ensures !p.bgExists ==> HandleRequest(p, toks, env).trace == p.trace
  {
  }
}

=== FILE: launcher.dfy ===
/** The process launcher and job supervisor of externals.c: exec_program,
    child_exec_cmd, parent_cleanup_after_exec, and the launch step of
    parse_external_request. A fork is modelled by its result: with 0 the
    returned process is the child (which never comes back: it is replaced
    or has exited), with a positive pid it is the shell after its cleanup. */
module Launcher {
  import opened Wrappers
  import opened Process
  import ShellIo
  import Planner

  const DevNullPath: string := "/dev/null"

  /** The notice printed when a job goes to the background. */
  function BackgroundNotice(pid: int): string
  {
    "PID " + ShellIo.FormatInt(pid) + " is sent to background"
  }

  /** The descriptors the parent closes after a foreground child: the
      ones that are not already the standard slots. */
  function ParentCopies(inFd: int, outFd: int): set<int>
  {
    (if inFd != StdinFd then {inFd} else {}) + (if outFd != StdoutFd then {outFd} else {})
  }


  // ---------------------------------------------------------------------
  // Child side
  // ---------------------------------------------------------------------

  /** dup2(fd, slot); on failure report `context`; on success close the
      original unless it already is the slot (that close is unchecked). */
  function Wire(p: Proc, fd: int, slot: int, context: string): (p': Proc)
    ensures fd in p.fds ==> slot in p'.fds && p'.fds[slot] == p.fds[fd]
    ensures fd in p.fds && fd != slot ==> fd !in p'.fds
    ensures fd in p.fds ==> forall k :: k != fd && k != slot ==> (k in p'.fds <==> k in p.fds)
    ensures fd in p.fds ==> forall k :: k in p'.fds && k != slot ==> p'.fds[k] == p.fds[k]
    ensures fd !in p.fds ==> p' == Emit(p, Perror(context))
    ensures p'.cwd == p.cwd && p'.bgExists == p.bgExists && p'.bgPid == p.bgPid && p'.status == p.status
    ensures p.trace <= p'.trace
    ensures fd in p.fds ==> forall e :: e in NewEvents(p, p') ==> !e.Perror?
  {
    match Dup2(p, fd, slot)
    case None => Emit(p, Perror(context))
    case Some(q) => if fd != slot then Close(q, fd).0 else q
  }

  /** The background branch of child_exec_cmd: open /dev/null and, if the
      output still goes to the standard slot, send it there instead. */
  function HideOutput(p: Proc, outFd: int, devNull: Option<nat>): (p': Proc)
    ensures p' == p.(fds := p'.fds, trace := p'.trace) && p.trace <= p'.trace
    ensures devNull.None? ==> |p'.trace| > |p.trace| && p'.trace[|p.trace|] == Perror("open() failed (opening /dev/null)")
    ensures devNull.Some? && outFd != StdoutFd ==>
              p'.fds == p.fds[devNull.value as int := File(DevNullPath, WriteOnly)] && p'.trace == p.trace
    ensures devNull.Some? && outFd == StdoutFd ==>
              StdoutFd in p'.fds && p'.fds[StdoutFd] == File(DevNullPath, WriteOnly) &&
              (devNull.value as int != StdoutFd ==> devNull.value as int !in p'.fds)
  {
    var (q, fd) := Open(p, DevNullPath, WriteOnly, devNull);
    var q1 := if fd == -1 then Emit(q, Perror("open() failed (opening /dev/null)")) else q;
    if outFd == StdoutFd then Wire(q1, fd, StdoutFd, "dup2() failed (output redirect)") else q1
  }

  /** The conditions under which the child's wiring cannot trip over its
      own closes: both descriptors open and distinct, the input not the
      output slot and the output not the input slot (descriptor numbers are
      never negative). /dev/null, when it opens, gets a descriptor above
      the standard slots that is free once the redirects are wired: one not
      in use before, or the input's or the output's descriptor, which the
      child has just closed. */
  predicate Wirable(p: Proc, inFd: int, outFd: int, devNull: Option<nat>)
  {
    && (forall k :: k in p.fds ==> k >= 0)
    && inFd in p.fds && outFd in p.fds && inFd != outFd
    && inFd != StdoutFd && outFd != StdinFd
    && (devNull.Some? ==>
          && devNull.value as int > StdoutFd
          && (devNull.value as int !in p.fds || devNull.value as int == inFd || devNull.value as int == outFd))
  }

  /** A background child whose output is already redirected keeps the
      /dev/null descriptor it opened, and that descriptor is fd. */
  predicate KeepsDevNullAt(background: bool, outFd: int, devNull: Option<nat>, fd: int)
  {
    background && outFd != StdoutFd && devNull.Some? && devNull.value as int == fd
  }

  /** The descriptor work of child_exec_cmd: stdin from inFd, stdout to
      outFd, and a background job's terminal output sent to /dev/null. */
  function WireChild(p: Proc, background: bool, inFd: int, outFd: int, devNull: Option<nat>): (p': Proc)
    ensures p' == p.(fds := p'.fds, trace := p'.trace) && p.trace <= p'.trace
    ensures inFd !in p.fds ==> |p'.trace| > |p.trace| && p'.trace[|p.trace|] == Perror("dup2() failed (input redirect)")
  {
    var p1 := Wire(p, inFd, StdinFd, "dup2() failed (input redirect)");
    var p2 := Wire(p1, outFd, StdoutFd, "dup2() failed (output redirect)");
    var p3 := if background then HideOutput(p2, outFd, devNull) else p2;
    assert inFd !in p.fds ==> p3.trace[|p.trace|] == Perror("dup2() failed (input redirect)") by {
      if inFd !in p.fds {
        assert p1.trace[|p.trace|] == Perror("dup2() failed (input redirect)");
        assert p3.trace[..|p1.trace|] == p1.trace;
      }
    }
    p3
  }

  /** The child's standard slots end up as asked: stdin refers to what inFd
      referred to, stdout to what outFd referred to unless a background
      job's terminal output went to /dev/null, and each original is closed
      unless it already was the standard slot. Of inFd, outFd and the
      /dev/null descriptor, only the /dev/null one a background job with
      redirected output keeps stays open besides the standard slots,
      possibly under the number of a just-closed original. */
  lemma ChildWiring(p: Proc, background: bool, inFd: int, outFd: int, devNull: Option<nat>)
    requires Wirable(p, inFd, outFd, devNull)
    ensures var p' := WireChild(p, background, inFd, outFd, devNull);
            && StdinFd in p'.fds && p'.fds[StdinFd] == p.fds[inFd]
            && StdoutFd in p'.fds
            && p'.fds[StdoutFd] == (if background && outFd == StdoutFd && devNull.Some?
                                    then File(DevNullPath, WriteOnly) else p.fds[outFd])
            && (inFd != StdinFd ==>
                  if KeepsDevNullAt(background, outFd, devNull, inFd)
                  then inFd in p'.fds && p'.fds[inFd] == File(DevNullPath, WriteOnly)
                  else inFd !in p'.fds)
            && (outFd != StdoutFd ==>
                  if KeepsDevNullAt(background, outFd, devNull, outFd)
                  then outFd in p'.fds && p'.fds[outFd] == File(DevNullPath, WriteOnly)
                  else outFd !in p'.fds)
            && (background && outFd != StdoutFd && devNull.Some? ==>
                  devNull.value as int in p'.fds && p'.fds[devNull.value as int] == File(DevNullPath, WriteOnly))
  {
  }

  /** `prog < in > out &` with in on 3 and out on 4: the child closes 3 and
      4, so /dev/null comes back as 3. stdin is the input file, stdout the
      output file, and 3 now names /dev/null. */
  lemma BackgroundRedirectsReuseNumber(p: Proc, inFile: string, outFile: string)
    requires p.fds == map[0 := Inherited(0), 1 := Inherited(1), 2 := Inherited(2),
                          3 := File(inFile, ReadOnly), 4 := File(outFile, WriteCreateTruncate(420))]
    ensures var p' := WireChild(p, true, 3, 4, Some(3));
            p'.fds == map[0 := File(inFile, ReadOnly), 1 := File(outFile, WriteCreateTruncate(420)),
                          2 := Inherited(2), 3 := File(DevNullPath, WriteOnly)]
  {
  }

  /** child_exec_cmd: wire the descriptors, then replace the image (with an
      empty environment), or report an unknown command and exit with
      status 1. */
  function ChildExec(p: Proc, argv: seq<string>, background: bool, inFd: int, outFd: int, le: LaunchEnv): (p': Proc)
    ensures p'.status == if le.execOk && |argv| > 0 then Replaced(argv, []) else Exited(1)
    ensures p.trace <= p'.trace
    ensures !(le.execOk && |argv| > 0) ==> |p'.trace| > 0 && p'.trace[|p'.trace| - 1] == Printed(ShellIo.UnknownCmdLine)
    ensures p'.fds == WireChild(p, background, inFd, outFd, le.devNull).fds
    ensures p'.cwd == p.cwd && p'.bgExists == p.bgExists && p'.bgPid == p.bgPid
  {
    var q := WireChild(p, background, inFd, outFd, le.devNull);
    if le.execOk && |argv| > 0 then q.(status := Replaced(argv, []))
    else
      assert ShellIo.ErrorLines(ShellIo.EcUnknownCmd) == [ShellIo.UnknownCmdLine];
      LogError(q, ShellIo.EcUnknownCmd).(status := Exited(1))
  }

  // ---------------------------------------------------------------------
  // Parent side
  // ---------------------------------------------------------------------

  /** close with its failure reported as `context`. */
  function CheckedClose(p: Proc, fd: int, context: string): (p': Proc)
    ensures p'.fds.Keys == p.fds.Keys - {fd}
    ensures forall k :: k in p'.fds ==> p'.fds[k] == p.fds[k]
    ensures p'.trace == p.trace + [if fd in p.fds then Closed(fd) else Perror(context)]
    ensures p' == p.(fds := p'.fds, trace := p'.trace)
  {
    var (q, ok) := Close(p, fd);
    if ok then q else Emit(q, Perror(context))
  }

  /** What closing fd reports, unless fd is the standard slot std and is
      left alone: the close, or the given perror when fd is not open. */
  function CloseReport(fd: int, std: int, open: bool, context: string): seq<Event>
  {
    if fd == std then [] else [if open then Closed(fd) else Perror(context)]
  }

  /** The events of a foreground cleanup over the table fds: the wait for
      pid, then one report for the input descriptor and one for the output
      descriptor, each unless it is the standard slot. The output is open for
      its close unless it is the input descriptor just closed. */
  function CleanupEvents(fds: map<int, Resource>, pid: int, inFd: int, outFd: int): seq<Event>
  {
    [Waited(pid)]
    + CloseReport(inFd, StdinFd, inFd in fds, "close() failed (input file)")
    + CloseReport(outFd, StdoutFd, outFd in fds && (outFd != inFd || inFd == StdinFd), "close() failed (output file)")
  }

  /** The background branch of parent_cleanup_after_exec: the single job
      slot now holds pid, whatever it held before; nothing is waited for
      and nothing is closed. */
  function RegisterBackground(p: Proc, pid: int): (p': Proc)
    ensures p'.bgExists && p'.bgPid == pid
    ensures p'.trace == p.trace + [Printed(BackgroundNotice(pid))]
    ensures p' == p.(bgExists := true, bgPid := pid, trace := p'.trace)
  {
    PrintLines(p.(bgExists := true, bgPid := pid), [BackgroundNotice(pid)])
  }

  /** The foreground branch of parent_cleanup_after_exec: wait for exactly
      this pid, then close each of the descriptors that is not a standard
      slot. */
  function WaitAndClose(p: Proc, pid: int, inFd: int, outFd: int): (p': Proc)
    ensures p'.trace == p.trace + CleanupEvents(p.fds, pid, inFd, outFd)
    ensures p'.fds.Keys == p.fds.Keys - ParentCopies(inFd, outFd)
    ensures forall k :: k in p'.fds ==> p'.fds[k] == p.fds[k]
    ensures p' == p.(fds := p'.fds, trace := p'.trace)
  {
    var p1 := Emit(p, Waited(pid));
    var p2 := if inFd != StdinFd then CheckedClose(p1, inFd, "close() failed (input file)") else p1;
    if outFd != StdoutFd then CheckedClose(p2, outFd, "close() failed (output file)") else p2
  }

  /** parent_cleanup_after_exec: a background child takes the job slot with
      the table untouched; a foreground child is waited for first, then the
      non-standard descriptors are released and the slot is left alone. */
  function ParentCleanup(p: Proc, pid: int, background: bool, inFd: int, outFd: int): (p': Proc)
    ensures p'.cwd == p.cwd && p'.status == p.status && p.trace <= p'.trace
    ensures background ==>
              p'.bgExists && p'.bgPid == pid && p'.fds == p.fds && p'.trace == p.trace + [Printed(BackgroundNotice(pid))]
    ensures !background ==>
              && p'.bgExists == p.bgExists && p'.bgPid == p.bgPid
              && p'.fds.Keys == p.fds.Keys - ParentCopies(inFd, outFd)
              && (forall k :: k in p'.fds ==> p'.fds[k] == p.fds[k])
              && p'.trace == p.trace + CleanupEvents(p.fds, pid, inFd, outFd)
  {
    if background then RegisterBackground(p, pid) else WaitAndClose(p, pid, inFd, outFd)
  }

  // ---------------------------------------------------------------------
  // exec_program and the launch step
  // ---------------------------------------------------------------------

  /** The child resets the two signals the shell ignores. */
  function ResetSignals(p: Proc): (p': Proc)
    ensures p'.trace == p.trace + [SignalDefaulted(SigInt), SignalDefaulted(SigTstp)]
    ensures p' == p.(trace := p'.trace)
  {
    Emit(Emit(p, SignalDefaulted(SigInt)), SignalDefaulted(SigTstp))
  }

  /** exec_program: fork, then the child's or the parent's side. */
  function ExecProgram(p: Proc, l: Planner.Launch, le: LaunchEnv): (p': Proc)
    ensures p.trace <= p'.trace
    ensures p'.cwd == p.cwd
    ensures le.forkPid != 0 ==> p'.status == p.status
    ensures le.forkPid == 0 ==> !p'.status.Running?
  {
    var p1 := if l.argc <= 0 then Emit(p, Perror("Not enough arguments for exec")) else p;
    if le.forkPid == 0 then ChildExec(ResetSignals(p1), l.argv, l.background, l.inFd, l.outFd, le)
    else if le.forkPid > 0 then ParentCleanup(p1, le.forkPid, l.background, l.inFd, l.outFd)
    else Emit(p1, Perror("fork() failed"))
  }

  /** A failed fork runs nothing: no wait, no close, no registration; only
      diagnostics are added. */
  lemma ForkFailureRunsNothing(p: Proc, l: Planner.Launch, le: LaunchEnv)
    requires le.forkPid < 0
    ensures var p' := ExecProgram(p, l, le);
            && p' == p.(trace := p'.trace)
            && p'.trace[|p'.trace| - 1] == Perror("fork() failed")
            && forall k :: |p.trace| <= k < |p'.trace| ==> p'.trace[k].Perror?
  {
  }

  /** The diagnostic exec_program prints for a non-positive argc. */
  function ArgcReport(l: Planner.Launch): seq<Event>
  {
    if l.argc <= 0 then [Perror("Not enough arguments for exec")] else []
  }

  /** In the shell, a background launch takes the job slot, keeps the table
      and only prints its notice; a foreground launch waits for exactly its
      child, then only closes the non-standard descriptors, and leaves the
      slot alone. */
  lemma ForkParentSupervises(p: Proc, l: Planner.Launch, le: LaunchEnv)
    requires le.forkPid > 0
    ensures var p' := ExecProgram(p, l, le);
            l.background ==>
              && p'.bgExists && p'.bgPid == le.forkPid && p'.fds == p.fds
              && p'.trace == p.trace + ArgcReport(l) + [Printed(BackgroundNotice(le.forkPid))]
    ensures var p' := ExecProgram(p, l, le);
            !l.background ==>
              && p'.bgExists == p.bgExists && p'.bgPid == p.bgPid
              && p'.fds.Keys == p.fds.Keys - ParentCopies(l.inFd, l.outFd)
              && (forall k :: k in p'.fds ==> p'.fds[k] == p.fds[k])
              && p'.trace == p.trace + ArgcReport(l) + CleanupEvents(p.fds, le.forkPid, l.inFd, l.outFd)
  {
  }

  /** In the child, the two ignored signals are reset first, and the child
      never comes back: it is replaced by the program or exits with 1. */
  lemma ForkChildNeverReturns(p: Proc, l: Planner.Launch, le: LaunchEnv)
    requires le.forkPid == 0
    ensures var p' := ExecProgram(p, l, le);
            var n := |p.trace| + (if l.argc <= 0 then 1 else 0);
            && n + 2 <= |p'.trace|
            && p'.trace[n] == SignalDefaulted(SigInt) && p'.trace[n + 1] == SignalDefaulted(SigTstp)
            && p'.status == if le.execOk && |l.argv| > 0 then Replaced(l.argv, []) else Exited(1)
  {
    var q := ResetSignals(p.(trace := p.trace + ArgcReport(l)));
    assert ExecProgram(p, l, le).trace[..|q.trace|] == q.trace;
  }

  /** The launch step of parse_external_request: the first launch, then the
      second one (a pipe's right-hand side) in the shell only, since a child
      never returns from exec_program. */
  function RunLaunches(p: Proc, launches: seq<Planner.Launch>, env: Env): (p': Proc)
    requires 1 <= |launches| <= 2
    ensures p.trace <= p'.trace
    ensures p'.cwd == p.cwd
    ensures env.first.forkPid == 0 || (|launches| == 2 && env.second.forkPid == 0) ==> !p'.status.Running?
    ensures env.first.forkPid != 0 && (|launches| == 1 || env.second.forkPid != 0) ==> p'.status == p.status
  {
    var p1 := ExecProgram(p, launches[0], env.first);
    if |launches| == 2 && env.first.forkPid != 0 then ExecProgram(p1, launches[1], env.second) else p1
  }

  /** parse_external_request: plan the line, then launch. */
  function ExternalRequest(p: Proc, toks: seq<string>, env: Env): (p': Proc)
    ensures p.trace <= p'.trace
    ensures p'.cwd == p.cwd
    ensures env.first.forkPid == 0 ==> !p'.status.Running?
    ensures env.first.forkPid != 0 && env.second.forkPid != 0 ==> p'.status == p.status
  {
    var (plan, p1) := Planner.PlanRequest(p, toks, env);
    RunLaunches(p1, plan.launches, env)
  }

  /** A pipeline is always run in the foreground: whatever the trailing
      "&", the job slot is left as it was. */
  lemma PipelineIsForeground(p: Proc, toks: seq<string>, env: Env)
    requires exists i :: Planner.IsPipeAt(toks, i)
    ensures ExternalRequest(p, toks, env).bgExists == p.bgExists
    ensures ExternalRequest(p, toks, env).bgPid == p.bgPid
  {
    var (plan, p1) := Planner.PlanRequest(p, toks, env);
    Planner.PlanSecondary(p, toks, env);
    var q := ExecProgram(p1, plan.launches[0], env.first);
    if env.first.forkPid > 0 {
      ForkParentSupervises(p1, plan.launches[0], env.first);
    }
    if env.first.forkPid != 0 && env.second.forkPid > 0 {
      ForkParentSupervises(q, plan.launches[1], env.second);
    }
  }

  /** With a pipe and both forks succeeding, the shell waits for the left
      child before the right one. */
  lemma PipelineWaitsInOrder(p: Proc, toks: seq<string>, env: Env)
    requires exists i :: Planner.IsPipeAt(toks, i)
    requires env.first.forkPid > 0 && env.second.forkPid > 0
    ensures var p' := ExternalRequest(p, toks, env);
            exists a, b :: |p.trace| <= a < b < |p'.trace| &&
              p'.trace[a] == Waited(env.first.forkPid) && p'.trace[b] == Waited(env.second.forkPid)
  {
    var (plan, p1) := Planner.PlanRequest(p, toks, env);
    Planner.PlanSecondary(p, toks, env);
    var q := ExecProgram(p1, plan.launches[0], env.first);
    var p' := ExecProgram(q, plan.launches[1], env.second);
    ForkParentSupervises(p1, plan.launches[0], env.first);
    ForkParentSupervises(q, plan.launches[1], env.second);
    var a :| |p1.trace| <= a < |q.trace| && q.trace[a] == Waited(env.first.forkPid);
    var b :| |q.trace| <= b < |p'.trace| && p'.trace[b] == Waited(env.second.forkPid);
    assert p'.trace[a] == q.trace[a];
    assert p' == ExternalRequest(p, toks, env);
    assert |p.trace| <= a < b < |p'.trace|;
  }

  /** Without a pipe there is one launch: a background job takes the slot,
      a foreground one is waited for and leaves the slot alone. */
  lemma PlainCommandSupervised(p: Proc, toks: seq<string>, env: Env)
    requires forall i :: !Planner.IsPipeAt(toks, i)
    requires env.first.forkPid > 0
    ensures var p' := ExternalRequest(p, toks, env);
            if Planner.IsBackground(toks) then p'.bgExists && p'.bgPid == env.first.forkPid
            else p'.bgExists == p.bgExists && p'.bgPid == p.bgPid && Waited(env.first.forkPid) in p'.trace[|p.trace|..]
  {
    var (plan, p1) := Planner.PlanRequest(p, toks, env);
    Planner.PlanSecondary(p, toks, env);
    ForkParentSupervises(p1, plan.launches[0], env.first);
    var p' := ExternalRequest(p, toks, env);
    if !Planner.IsBackground(toks) {
      var w :| |p1.trace| <= w < |p'.trace| && p'.trace[w] == Waited(env.first.forkPid);
      assert p'.trace[|p.trace|..][w - |p.trace|] == Waited(env.first.forkPid);
    }
  }
}

=== FILE: planner.dfy ===
/** The redirection/pipe planner of externals.c (parse_external_request).

    The C code cuts argument vectors out of the token array by writing NULL
    over operator tokens; execve then sees the tokens from a start index up
    to the next NULL. Here the NULLs are a set of cut indices and an argument
    vector is the segment from a start index to the next cut (or to the end
    of the tokens, where the caller's array is NULL-terminated). */
module Planner {
  import opened Wrappers
  import opened Process

  predicate IsOperator(t: string)
  {
    t == "<" || t == ">" || t == "|"
  }

  /** The line asks for a background job: at least two tokens, the last "&". */
  predicate IsBackground(toks: seq<string>)
  {
    |toks| >= 2 && toks[|toks| - 1] == "&"
  }

  /** The scan only looks at indices 1 .. |toks|-2 of the original tokens,
      so an operator is recognised only where a token follows it. */
  predicate Recognized(toks: seq<string>, i: int)
  {
    1 <= i < |toks| - 1 && IsOperator(toks[i])
  }

  predicate IsPipeAt(toks: seq<string>, i: int)
  {
    Recognized(toks, i) && toks[i] == "|"
  }

  /** k is the last recognised pipe: argv2 ends up pointing just after it. */
  predicate IsLastPipe(toks: seq<string>, k: int)
  {
    IsPipeAt(toks, k) && forall j :: k < j < |toks| ==> !IsPipeAt(toks, j)
  }

  datatype Direction = Input | Output

  function RedirectOperator(d: Direction): string
  {
    if d == Input then "<" else ">"
  }

  function StdFd(d: Direction): int
  {
    if d == Input then StdinFd else StdoutFd
  }

  /** The token at i sets the descriptor of direction d: a redirect in that
      direction (whether or not its open succeeds), or a pipe whose pipe()
      call succeeds. A failed pipe() leaves both descriptors alone. */
  predicate Assigns(toks: seq<string>, env: Env, d: Direction, i: int)
  {
    Recognized(toks, i) && (toks[i] == RedirectOperator(d) || (toks[i] == "|" && i in env.pipes))
  }

  /** The descriptor the token at i assigns: the opened file, the standard
      descriptor when open fails, or the matching end of the new pipe. */
  function AssignedFd(toks: seq<string>, env: Env, d: Direction, i: int): int
    requires Assigns(toks, env, d, i)
  {
    if toks[i] == RedirectOperator(d) then (if i in env.opens then env.opens[i] as int else StdFd(d))
    else if d == Input then env.pipes[i].0 as int
    else env.pipes[i].1 as int
  }

  /** i is the last token that assigns direction d: it wins. */
  predicate IsLastAssignment(toks: seq<string>, env: Env, d: Direction, i: int)
  {
    Assigns(toks, env, d, i) && forall j :: i < j < |toks| ==> !Assigns(toks, env, d, j)
  }

  // ---------------------------------------------------------------------
  // The scan loop
  // ---------------------------------------------------------------------

  /** The loop's variables: the process (descriptor table and diagnostics),
      infile_fd, outfile_fd, the NULLed indices, and the index of the `|`
      that argv2 was last set after. */
  datatype Scan = Scan(proc: Proc, inFd: int, outFd: int, cuts: set<int>, pipeAt: Option<int>)

  function FdOf(s: Scan, d: Direction): int
  {
    if d == Input then s.inFd else s.outFd
  }

  /** One iteration of the scan at index i. */
  function Step(toks: seq<string>, env: Env, i: int, s: Scan): (r: Scan)
    requires 1 <= i < |toks| - 1
    ensures r.cuts == if IsOperator(toks[i]) then s.cuts + {i} else s.cuts
    ensures r.pipeAt == if toks[i] == "|" then Some(i) else s.pipeAt
    ensures FdOf(r, Input) == if Assigns(toks, env, Input, i) then AssignedFd(toks, env, Input, i) else FdOf(s, Input)
    ensures FdOf(r, Output) == if Assigns(toks, env, Output, i) then AssignedFd(toks, env, Output, i) else FdOf(s, Output)
    ensures r.proc.cwd == s.proc.cwd && r.proc.bgExists == s.proc.bgExists && r.proc.bgPid == s.proc.bgPid
    ensures r.proc.status == s.proc.status && s.proc.trace <= r.proc.trace
    // a successful open names the following token, with the redirect's flags
    ensures toks[i] == "<" && i in env.opens ==>
              env.opens[i] as int in r.proc.fds && r.proc.fds[env.opens[i] as int] == File(toks[i + 1], ReadOnly)
    ensures toks[i] == ">" && i in env.opens ==>
              env.opens[i] as int in r.proc.fds && r.proc.fds[env.opens[i] as int] == File(toks[i + 1], WriteCreateTruncate(420))
    ensures toks[i] == "|" && i in env.pipes ==>
              env.pipes[i].0 as int in r.proc.fds && env.pipes[i].1 as int in r.proc.fds &&
              r.proc.fds[env.pipes[i].1 as int] == PipeWrite(env.pipes[i].0) &&
              (env.pipes[i].0 != env.pipes[i].1 ==> r.proc.fds[env.pipes[i].0 as int] == PipeRead(env.pipes[i].0))
    // the table changes only by the entries an open or pipe produces
    ensures !IsOperator(toks[i]) ==> r == s
    ensures toks[i] == "<" ==>
              r.proc.fds == if i in env.opens then s.proc.fds[env.opens[i] as int := File(toks[i + 1], ReadOnly)] else s.proc.fds
    ensures toks[i] == ">" ==>
              r.proc.fds == if i in env.opens then s.proc.fds[env.opens[i] as int := File(toks[i + 1], WriteCreateTruncate(420))]
                            else s.proc.fds
    ensures toks[i] == "|" ==>
              r.proc.fds == if i in env.pipes then s.proc.fds[env.pipes[i].0 as int := PipeRead(env.pipes[i].0)]
                                                              [env.pipes[i].1 as int := PipeWrite(env.pipes[i].0)]
                            else s.proc.fds
    // a successful open or pipe prints nothing; a failed one is reported
    ensures IsOperator(toks[i]) && i in (if toks[i] == "|" then env.pipes.Keys else env.opens.Keys) ==>
              r.proc.trace == s.proc.trace
    ensures IsOperator(toks[i]) && i !in (if toks[i] == "|" then env.pipes.Keys else env.opens.Keys) ==>
              r.proc.trace == s.proc.trace + [Perror(if toks[i] == "<" then "open() failed (input redirect)"
                                                     else if toks[i] == ">" then "open() failed (output redirect)"
                                                     else "pipe() failed")]
  {
    if toks[i] == "<" then
      var (p, fd) := Open(s.proc, toks[i + 1], ReadOnly, Lookup(env.opens, i));
      if fd == -1 then s.(proc := Emit(p, Perror("open() failed (input redirect)")), inFd := StdinFd, cuts := s.cuts + {i})
      else s.(proc := p, inFd := fd, cuts := s.cuts + {i})
    else if toks[i] == ">" then
      var (p, fd) := Open(s.proc, toks[i + 1], WriteCreateTruncate(420), Lookup(env.opens, i));
      if fd == -1 then s.(proc := Emit(p, Perror("open() failed (output redirect)")), outFd := StdoutFd, cuts := s.cuts + {i})
      else s.(proc := p, outFd := fd, cuts := s.cuts + {i})
    else if toks[i] == "|" then
      if i in env.pipes then
        var (rd, wr) := env.pipes[i];
        var p := s.proc.(fds := s.proc.fds[rd as int := PipeRead(rd)][wr as int := PipeWrite(rd)]);
        s.(proc := p, inFd := rd as int, outFd := wr as int, cuts := s.cuts + {i}, pipeAt := Some(i))
      else
        s.(proc := Emit(s.proc, Perror("pipe() failed")), cuts := s.cuts + {i}, pipeAt := Some(i))
    else s
  }

  /** The loop `for (i = 1; i < argc-1; i++)` from index i on. It changes
      nothing of the process but its descriptor table and trace, only
      appends to the trace, and never removes a cut already made. */
  function ScanFrom(toks: seq<string>, env: Env, i: int, s: Scan): (r: Scan)
    requires 1 <= i
    ensures r.proc.cwd == s.proc.cwd && r.proc.bgExists == s.proc.bgExists && r.proc.bgPid == s.proc.bgPid
    ensures r.proc.status == s.proc.status
    ensures s.proc.trace <= r.proc.trace
    ensures s.cuts <= r.cuts
    ensures s.pipeAt.Some? ==> r.pipeAt.Some?
    ensures (forall j :: i <= j ==> !Recognized(toks, j)) ==> r == s
    ensures s.proc.fds.Keys <= r.proc.fds.Keys
    decreases |toks| - i
  {
    if i >= |toks| - 1 then s else ScanFrom(toks, env, i + 1, Step(toks, env, i, s))
  }

  /** The scan cuts exactly at the recognised operators. */
  lemma {:induction false} ScanCuts(toks: seq<string>, env: Env, i: int, s: Scan)
    requires 1 <= i
    ensures forall c :: c in ScanFrom(toks, env, i, s).cuts <==> c in s.cuts || (i <= c && Recognized(toks, c))
    decreases |toks| - i
  {
    if i < |toks| - 1 {
      ScanCuts(toks, env, i + 1, Step(toks, env, i, s));
    }
  }

  /** The scan remembers the last recognised pipe. */
  lemma {:induction false} ScanPipe(toks: seq<string>, env: Env, i: int, s: Scan)
    requires 1 <= i
    ensures (forall j :: i <= j ==> !IsPipeAt(toks, j)) ==> ScanFrom(toks, env, i, s).pipeAt == s.pipeAt
    ensures forall k :: i <= k && IsLastPipe(toks, k) ==> ScanFrom(toks, env, i, s).pipeAt == Some(k)
    decreases |toks| - i
  {
    if i < |toks| - 1 {
      var s' := Step(toks, env, i, s);
      ScanPipe(toks, env, i + 1, s');
      if forall j :: i <= j ==> !IsPipeAt(toks, j) {
        assert !IsPipeAt(toks, i);
        assert s'.pipeAt == s.pipeAt;
      }
    }
  }

  /** The descriptors a successful open or pipe at index j enters into the
      table. */
  function Produced(toks: seq<string>, env: Env, j: int): set<int>
  {
    if !Recognized(toks, j) then {}
    else if toks[j] == "|" then (if j in env.pipes then {env.pipes[j].0 as int, env.pipes[j].1 as int} else {})
    else if j in env.opens then {env.opens[j] as int}
    else {}
  }

  /** The flags a redirect in direction d opens its file with. */
  function ModeOf(d: Direction): OpenMode
  {
    if d == Input then ReadOnly else WriteCreateTruncate(420)
  }

  /** A table entry that no later open or pipe produces survives the scan. */
  lemma {:induction false} ScanKeepsEntry(toks: seq<string>, env: Env, i: int, s: Scan, x: int)
    requires 1 <= i && x in s.proc.fds
    requires forall j :: i <= j ==> x !in Produced(toks, env, j)
    ensures x in ScanFrom(toks, env, i, s).proc.fds
    ensures ScanFrom(toks, env, i, s).proc.fds[x] == s.proc.fds[x]
    decreases |toks| - i
  {
    if i < |toks| - 1 {
      assert x !in Produced(toks, env, i);
      ScanKeepsEntry(toks, env, i + 1, Step(toks, env, i, s), x);
    }
  }

  /** When the last assignment of direction d is a redirect whose open
      succeeds, and no later open or pipe reuses that descriptor number, the
      scan ends with that descriptor in d, naming the redirect's file. */
  lemma {:induction false} ScanOpenedFile(toks: seq<string>, env: Env, d: Direction, i: int, s: Scan, k: int)
    requires 1 <= i <= k
    requires IsLastAssignment(toks, env, d, k) && toks[k] == RedirectOperator(d) && k in env.opens
    requires forall j :: k < j ==> env.opens[k] as int !in Produced(toks, env, j)
    ensures var r := ScanFrom(toks, env, i, s);
            FdOf(r, d) == env.opens[k] as int && FdOf(r, d) in r.proc.fds && r.proc.fds[FdOf(r, d)] == File(toks[k + 1], ModeOf(d))
    decreases k - i
  {
    var s' := Step(toks, env, i, s);
    if i < k {
      ScanOpenedFile(toks, env, d, i + 1, s', k);
    } else {
      ScanFd(toks, env, d, k + 1, s');
      ScanKeepsEntry(toks, env, k + 1, s', env.opens[k] as int);
    }
  }

  /** For each direction, the last assignment wins; with none, the
      descriptor keeps its value. */
  lemma {:induction false} ScanFd(toks: seq<string>, env: Env, d: Direction, i: int, s: Scan)
    requires 1 <= i
    ensures (forall j :: i <= j ==> !Assigns(toks, env, d, j)) ==> FdOf(ScanFrom(toks, env, i, s), d) == FdOf(s, d)
    ensures forall k :: i <= k && IsLastAssignment(toks, env, d, k) ==>
              FdOf(ScanFrom(toks, env, i, s), d) == AssignedFd(toks, env, d, k)
    decreases |toks| - i
  {
    if i < |toks| - 1 {
      ScanFd(toks, env, d, i + 1, Step(toks, env, i, s));
    }
  }

  // ---------------------------------------------------------------------
  // Argument vectors cut out of the tokens
  // ---------------------------------------------------------------------

  /** The index of the NULL that ends the vector starting at k. */
  function SegmentEnd(toks: seq<string>, cuts: set<int>, k: int): (e: int)
    requires 0 <= k <= |toks|
    ensures k <= e <= |toks|
    ensures forall j :: k <= j < e ==> j !in cuts
    ensures e == |toks| || e in cuts
    decreases |toks| - k
  {
    if k == |toks| || k in cuts then k else SegmentEnd(toks, cuts, k + 1)
  }

  /** argv is what execve sees when handed the token array at k: the
      tokens from k up to, not including, the first NULL. */
  predicate IsArgvAt(toks: seq<string>, cuts: set<int>, k: int, argv: seq<string>)
  {
    && 0 <= k && k + |argv| <= |toks|
    && toks[k..k + |argv|] == argv
    && (forall j :: k <= j < k + |argv| ==> j !in cuts)
    && (k + |argv| == |toks| || k + |argv| in cuts)
  }

  function Segment(toks: seq<string>, cuts: set<int>, k: int): (argv: seq<string>)
    requires 0 <= k <= |toks|
    ensures IsArgvAt(toks, cuts, k, argv)
  {
    toks[k..SegmentEnd(toks, cuts, k)]
  }

  // ---------------------------------------------------------------------
  // The plan
  // ---------------------------------------------------------------------

  /** One exec_program call: argc as passed, the vector, the background
      flag and the descriptor pair. */
  datatype Launch = Launch(argc: int, argv: seq<string>, background: bool, inFd: int, outFd: int)

  datatype Plan = Plan(
    background: bool,
    argc: int,
    inFd: int,
    outFd: int,
    cuts: set<int>,
    pipeAt: Option<int>,
    primary: seq<string>,
    secondary: Option<seq<string>>,
    launches: seq<Launch>)

  function PlanFd(plan: Plan, d: Direction): int
  {
    if d == Input then plan.inFd else plan.outFd
  }

  /** The loop's variables on entry: descriptors at their standard values,
      nothing cut, argv2 == argv. */
  function InitialScan(p: Proc): Scan
  {
    Scan(p, StdinFd, StdoutFd, {}, None)
  }

  /** The whole scan loop of one line. */
  function ScanLine(p: Proc, toks: seq<string>, env: Env): Scan
  {
    ScanFrom(toks, env, 1, InitialScan(p))
  }

  /** The scan's pipe index is the last recognised pipe, if there is one. */
  lemma ScanLinePipe(p: Proc, toks: seq<string>, env: Env)
    ensures ScanLine(p, toks, env).pipeAt.None? <==> forall i :: !IsPipeAt(toks, i)
    ensures ScanLine(p, toks, env).pipeAt.Some? ==> IsLastPipe(toks, ScanLine(p, toks, env).pipeAt.value)
  {
    ScanPipe(toks, env, 1, InitialScan(p));
    if exists i :: IsPipeAt(toks, i) {
      LastPipeExists(toks);
    }
  }

  /** parse_external_request up to its exec_program calls: the plan, and the
      process after the redirect files and the pipe have been opened. */
  function PlanRequest(p: Proc, toks: seq<string>, env: Env): (r: (Plan, Proc))
    ensures r.0.background <==> |toks| >= 2 && toks[|toks| - 1] == "&"
    ensures r.0.argc == if r.0.background then |toks| - 1 else |toks|
    ensures r.0.secondary.Some? <==> r.0.pipeAt.Some?
    ensures r.0.pipeAt.None? ==> r.0.launches == [Launch(r.0.argc, r.0.primary, r.0.background, r.0.inFd, r.0.outFd)]
    ensures r.0.pipeAt.Some? ==>
              r.0.launches == [Launch(r.0.argc, r.0.primary, false, StdinFd, r.0.outFd),
                               Launch(r.0.argc, r.0.secondary.value, false, r.0.inFd, StdoutFd)]
    ensures r.1.cwd == p.cwd && r.1.bgExists == p.bgExists && r.1.bgPid == p.bgPid && r.1.status == p.status
    ensures p.trace <= r.1.trace
    ensures (forall j :: !Recognized(toks, j)) ==> r.1 == p
  {
    var bg := IsBackground(toks);
    var s := ScanLine(p, toks, env);
    ScanLinePipe(p, toks, env);
    var cuts := if bg then s.cuts + {|toks| - 1} else s.cuts;
    var argc := if bg then |toks| - 1 else |toks|;
    var primary := Segment(toks, cuts, 0);
    var secondary := if s.pipeAt.Some? then Some(Segment(toks, cuts, s.pipeAt.value + 1)) else None;
    var launches :=
      if s.pipeAt.None? then [Launch(argc, primary, bg, s.inFd, s.outFd)]
      else [Launch(argc, primary, false, StdinFd, s.outFd), Launch(argc, secondary.value, false, s.inFd, StdoutFd)];
    (Plan(bg, argc, s.inFd, s.outFd, cuts, s.pipeAt, primary, secondary, launches), s.proc)
  }

  /** The NULLs written into the array: one at every recognised operator,
      and one over a trailing "&". Index 0 is never cut. */
  lemma PlanCuts(p: Proc, toks: seq<string>, env: Env)
    ensures forall c :: c in PlanRequest(p, toks, env).0.cuts <==>
              Recognized(toks, c) || (IsBackground(toks) && c == |toks| - 1)
    ensures 0 !in PlanRequest(p, toks, env).0.cuts
  {
    ScanCuts(toks, env, 1, InitialScan(p));
  }

  /** The primary vector is the tokens before the first NULL: never empty,
      free of recognised operators, and without the trailing "&". */
  lemma PlanPrimary(p: Proc, toks: seq<string>, env: Env)
    ensures IsArgvAt(toks, PlanRequest(p, toks, env).0.cuts, 0, PlanRequest(p, toks, env).0.primary)
    ensures |toks| >= 1 ==> |PlanRequest(p, toks, env).0.primary| >= 1
    ensures forall j :: 0 <= j < |PlanRequest(p, toks, env).0.primary| ==> !Recognized(toks, j)
    ensures IsBackground(toks) ==> |PlanRequest(p, toks, env).0.primary| <= |toks| - 1
  {
    PlanCuts(p, toks, env);
    var plan := PlanRequest(p, toks, env).0;
    if IsBackground(toks) {
      assert |toks| - 1 in plan.cuts;
    }
  }

  /** The secondary vector exists exactly when a pipe is recognised, and it
      runs from just after the last recognised pipe to the next NULL. */
  lemma PlanSecondary(p: Proc, toks: seq<string>, env: Env)
    ensures PlanRequest(p, toks, env).0.secondary.None? <==> forall i :: !IsPipeAt(toks, i)
    ensures PlanRequest(p, toks, env).0.secondary.Some? ==>
              var k := PlanRequest(p, toks, env).0.pipeAt.value;
              IsLastPipe(toks, k) && IsArgvAt(toks, PlanRequest(p, toks, env).0.cuts, k + 1, PlanRequest(p, toks, env).0.secondary.value)
  {
    ScanLinePipe(p, toks, env);
  }

  /** Each descriptor comes from the last token that assigns it, or is the
      standard one when no token does. */
  lemma PlanDescriptors(p: Proc, toks: seq<string>, env: Env, d: Direction)
    ensures (forall i :: !Assigns(toks, env, d, i)) ==> PlanFd(PlanRequest(p, toks, env).0, d) == StdFd(d)
    ensures forall i :: IsLastAssignment(toks, env, d, i) ==>
              PlanFd(PlanRequest(p, toks, env).0, d) == AssignedFd(toks, env, d, i)
  {
    ScanFd(toks, env, d, 1, InitialScan(p));
  }

  /** The descriptor planned for direction d names the file of the last
      redirect in d, when that open succeeded and no later open or pipe was
      given the same number. */
  lemma PlanOpenedFile(p: Proc, toks: seq<string>, env: Env, d: Direction, k: int)
    requires IsLastAssignment(toks, env, d, k) && toks[k] == RedirectOperator(d) && k in env.opens
    requires forall j :: k < j ==> env.opens[k] as int !in Produced(toks, env, j)
    ensures var r := PlanRequest(p, toks, env);
            PlanFd(r.0, d) == env.opens[k] as int && PlanFd(r.0, d) in r.1.fds &&
            r.1.fds[PlanFd(r.0, d)] == File(toks[k + 1], ModeOf(d))
  {
    ScanOpenedFile(toks, env, d, 1, InitialScan(p), k);
  }

  /** With a working pipe followed by a `>` that is the last output
      assignment, the left command writes to the `>` target, not into the
      pipe, and the right command writes to the standard output: the
      redirect is not applied to the right-hand side. */
  lemma RedirectAfterPipeBypassesPipe(p: Proc, toks: seq<string>, env: Env, k: int, j: int)
    requires IsPipeAt(toks, k) && k in env.pipes
    requires k < j && IsLastAssignment(toks, env, Output, j) && toks[j] == ">"
    ensures var plan := PlanRequest(p, toks, env).0;
            && |plan.launches| == 2
            && plan.launches[0].outFd == (if j in env.opens then env.opens[j] as int else StdoutFd)
            && plan.launches[1].outFd == StdoutFd
  {
    PlanDescriptors(p, toks, env, Output);
    ScanLinePipe(p, toks, env);
  }

  /** When some pipe is recognised, a last one exists. */
  lemma LastPipeExists(toks: seq<string>)
    requires exists i :: IsPipeAt(toks, i)
    ensures exists k :: IsLastPipe(toks, k)
  {
    var i :| IsPipeAt(toks, i);
    LastPipeFrom(toks, i);
  }

  lemma {:induction false} LastPipeFrom(toks: seq<string>, i: int)
    requires IsPipeAt(toks, i)
    ensures exists k :: IsLastPipe(toks, k)
    decreases |toks| - i
  {
    if !IsLastPipe(toks, i) {
      var j :| i < j < |toks| && IsPipeAt(toks, j);
      LastPipeFrom(toks, j);
    }
  }
}

=== FILE: process.dfy ===
/** The shell process as the rest of the model sees it: its descriptor table,
    working directory, single background-job slot, the trace of observable
    events, and whether it is still running. The operating system's answers
    (open, pipe, fork, execve, chdir, kill, waitpid) are not computed here:
    they arrive as an `Env` value for the line being handled. */
module Process {
  import opened Wrappers
  import ShellIo

  const StdinFd: int := 0
  const StdoutFd: int := 1

  /** Flags of an open() call; the creation permission is kept as given
      (0644 is 420). */
  datatype OpenMode = ReadOnly | WriteOnly | WriteCreateTruncate(perm: int)

  /** What a descriptor refers to. A pipe is named by the descriptor
      pipe() returned for its read end. */
  datatype Resource =
    | Inherited(fd: int)
    | File(path: string, mode: OpenMode)
    | PipeRead(pipe: int)
    | PipeWrite(pipe: int)

  datatype Signal = SigInt | SigTstp | SigTerm

  datatype Event =
    | Printed(line: string)          // a line written by printf, then a newline
    | Perror(context: string)        // a perror diagnostic with this context text
    | SignalDefaulted(sig: Signal)   // the disposition of sig reset to default
    | Waited(pid: int)               // a blocking waitpid on exactly this pid
    | Closed(fd: int)                // a descriptor released by close
    | Killed(pid: int, sig: Signal)  // a signal delivered by kill

  datatype Status =
    | Running
    | Exited(code: int)
    | Replaced(argv: seq<string>, envp: seq<string>)  // execve succeeded with this argument vector and environment

  datatype Proc = Proc(
    fds: map<int, Resource>,
    cwd: string,
    bgExists: bool,
    bgPid: int,
    trace: seq<Event>,
    status: Status)

  /** The OS results of one child's launch: what fork returned (C
      convention: 0 in the child, the child's pid in the parent, negative on
      failure), what open("/dev/null") returns in the child, and whether
      execve succeeds. */
  datatype LaunchEnv = LaunchEnv(forkPid: int, devNull: Option<nat>, execOk: bool)

  /** The OS results for one input line. `opens` maps the token index of a
      `<` or `>` whose open() succeeds to the descriptor returned; `pipes`
      maps the index of a `|` whose pipe() succeeds to (read, write);
      `first` and `second` serve the first and second launch; `dirs` maps
      each path chdir accepts to the working directory it produces. */
  datatype Env = Env(
    opens: map<int, nat>,
    pipes: map<int, (nat, nat)>,
    first: LaunchEnv,
    second: LaunchEnv,
    dirs: map<string, string>,
    killOk: bool,
    waitOk: bool)

  /** The events p' added after those of p. */
  function NewEvents(p: Proc, p': Proc): seq<Event>
    requires p.trace <= p'.trace
  {
    p'.trace[|p.trace|..]
  }

  function Emit(p: Proc, e: Event): (p': Proc)
    ensures p'.trace == p.trace + [e]
    ensures p' == p.(trace := p'.trace)
  {
    p.(trace := p.trace + [e])
  }

  function PrintLines(p: Proc, lines: seq<string>): (p': Proc)
    ensures p'.trace == p.trace + seq(|lines|, k requires 0 <= k < |lines| => Printed(lines[k]))
    ensures p' == p.(trace := p'.trace)
  {
    p.(trace := p.trace + seq(|lines|, k requires 0 <= k < |lines| => Printed(lines[k])))
  }

  /** log_error_msg: the lines of the code, printed. */
  function LogError(p: Proc, rc: int): (p': Proc)
    ensures rc == ShellIo.EcSuccess ==> p' == p
    ensures p' == p.(trace := p'.trace) && p.trace <= p'.trace
    ensures |p'.trace| == |p.trace| + |ShellIo.ErrorLines(rc)|
    ensures forall k :: 0 <= k < |ShellIo.ErrorLines(rc)| ==> p'.trace[|p.trace| + k] == Printed(ShellIo.ErrorLines(rc)[k])
  {
    PrintLines(p, ShellIo.ErrorLines(rc))
  }

  /** open(): on success the returned descriptor now names the file; on
      failure the table is unchanged and the result is -1. */
  function Open(p: Proc, path: string, mode: OpenMode, result: Option<nat>): (r: (Proc, int))
    ensures result.Some? ==> r.1 == result.value && r.0 == p.(fds := p.fds[r.1 := File(path, mode)])
    ensures result.None? ==> r == (p, -1)
  {
    match result
    case Some(fd) => (p.(fds := p.fds[fd as int := File(path, mode)]), fd as int)
    case None => (p, -1)
  }

  /** dup2(source, target): fails exactly when source is not an open descriptor;
      otherwise target refers to what source refers to. */
  function Dup2(p: Proc, source: int, target: int): (r: Option<Proc>)
    ensures r.None? <==> source !in p.fds
    ensures r.Some? ==> r.value == p.(fds := p.fds[target := p.fds[source]])
  {
    if source in p.fds then Some(p.(fds := p.fds[target := p.fds[source]])) else None
  }

  /** close(fd): fails exactly when fd is not open; otherwise fd leaves the
      table and a Closed event is recorded. The bool is true on success. */
  function Close(p: Proc, fd: int): (r: (Proc, bool))
    ensures r.1 <==> fd in p.fds
    ensures r.0.fds.Keys == p.fds.Keys - {fd}
    ensures forall k :: k in r.0.fds ==> r.0.fds[k] == p.fds[k]
    ensures r.1 ==> r.0.trace == p.trace + [Closed(fd)]
    ensures !r.1 ==> r.0 == p
    ensures r.0.cwd == p.cwd && r.0.bgExists == p.bgExists && r.0.bgPid == p.bgPid && r.0.status == p.status
  {
    if fd in p.fds then (p.(fds := p.fds - {fd}, trace := p.trace + [Closed(fd)]), true)
    else (p, false)
  }
}

=== FILE: shellio.dfy ===
/** The shell's line-level text handling: the ErrCode messages, the newline
    trim applied to an input line, the strtok-based tokenizer, and the decimal
    rendering printf gives to a process identifier. */
module ShellIo {
  import opened Wrappers

  // ---------------------------------------------------------------------
  // Error codes and their messages
  // ---------------------------------------------------------------------

  /* The values of the ErrCode enumeration, in declaration order. A C enum
     variable can hold any int, so a code is modelled as an int. */
  const EcSuccess: int := 0
  const EcCdNoArgs: int := 1
  const EcCdPathNotFound: int := 2
  const EcUnknownCmd: int := 3

  /** Every diagnostic of the shell itself starts with this. */
  const ShellPrefix: string := "dragonshell: "

  const CdNoArgsLine: string := "dragonshell: Expected argument to \"cd\""
  const CdPathNotFoundLine: string := "dragonshell: No such file or directory"
  const UnknownCmdLine: string := "dragonshell: Command not found"
  const UnknownCodeLine: string := "dragonshell: Unknown error code!"
  const UnknownCodeHint: string := "Ensure all errors have been added to enum ErrCode."

  predicate IsDefinedError(rc: int)
  {
    EcCdNoArgs <= rc <= EcUnknownCmd
  }

  predicate StartsWith(s: string, prefix: string)
  {
    |prefix| <= |s| && s[..|prefix|] == prefix
  }

  /** The lines log_error_msg prints for code rc, each followed by a newline. */
  function ErrorLines(rc: int): (lines: seq<string>)
    ensures rc == EcSuccess <==> lines == []
    ensures IsDefinedError(rc) ==> |lines| == 1 && StartsWith(lines[0], ShellPrefix)
    ensures rc != EcSuccess && !IsDefinedError(rc) ==>
              |lines| == 2 && StartsWith(lines[0], ShellPrefix)
  {
    if rc == EcSuccess then []
    else if rc == EcCdNoArgs then [CdNoArgsLine]
    else if rc == EcCdPathNotFound then [CdPathNotFoundLine]
    else if rc == EcUnknownCmd then [UnknownCmdLine]
    else [UnknownCodeLine, UnknownCodeHint]
  }

  /** The defined code whose message is `line`, if any. */
  function ErrorCodeOf(line: string): (rc: Option<int>)
    ensures rc.Some? ==> IsDefinedError(rc.value)
  {
    if line == CdNoArgsLine then Some(EcCdNoArgs)
    else if line == CdPathNotFoundLine then Some(EcCdPathNotFound)
    else if line == UnknownCmdLine then Some(EcUnknownCmd)
    else None
  }

  /** A printed error line identifies its code: defined codes have pairwise
      distinct messages, and the fallback's first line is none of them. */
  lemma ErrorLinesIdentifyCode(rc: int)
    ensures IsDefinedError(rc) ==> ErrorCodeOf(ErrorLines(rc)[0]) == Some(rc)
    ensures rc != EcSuccess && !IsDefinedError(rc) ==> ErrorCodeOf(ErrorLines(rc)[0]) == None
  {
  }

  // ---------------------------------------------------------------------
  // Spans (strspn / strcspn, sections 7.24.5.6 and 7.24.5.3 of C11)
  // ---------------------------------------------------------------------

  /** The position where the run of characters from `accept` that starts
      at p ends: p plus strspn(s + p, accept). */
  function SpanEnd(s: string, accept: string, p: nat): (q: nat)
    requires p <= |s|
    ensures p <= q <= |s|
    ensures forall k :: p <= k < q ==> s[k] in accept
    ensures q < |s| ==> s[q] !in accept
    decreases |s| - p
  {
    if p == |s| || s[p] !in accept then p else SpanEnd(s, accept, p + 1)
  }

  /** The position where the run of characters NOT from `reject` that starts
      at p ends: p plus strcspn(s + p, reject). */
  function CSpanEnd(s: string, reject: string, p: nat): (q: nat)
    requires p <= |s|
    ensures p <= q <= |s|
    ensures forall k :: p <= k < q ==> s[k] !in reject
    ensures q < |s| ==> s[q] in reject
    decreases |s| - p
  {
    if p == |s| || s[p] in reject then p else CSpanEnd(s, reject, p + 1)
  }

  // ---------------------------------------------------------------------
  // Newline trim of an input line
  // ---------------------------------------------------------------------

  /** The line as display_prompt leaves it: cut at its first newline. */
  function TrimNewline(line: string): (r: string)
    ensures r <= line
    ensures '\n' !in r
    ensures '\n' in line ==> |r| < |line| && line[|r|] == '\n'
    ensures '\n' !in line ==> r == line
  {
    line[..CSpanEnd(line, "\n", 0)]
  }

  /** Trimming an already trimmed line changes nothing. */
  lemma TrimNewlineIdempotent(line: string)
    ensures TrimNewline(TrimNewline(line)) == TrimNewline(line)
  {
  }

  // ---------------------------------------------------------------------
  // Tokenizer (strtok, section 7.24.5.8 of C11)
  // ---------------------------------------------------------------------

  /** True when position i begins a maximal run of non-delimiter characters. */
  predicate IsRunStart(s: string, delim: string, i: int)
    requires 0 <= i < |s|
  {
    s[i] !in delim && (i == 0 || s[i - 1] in delim)
  }

  /** Reference definition of a split: one token per maximal run of
      non-delimiter characters that starts at or after i, in order. */
  function Runs(s: string, delim: string, i: nat): seq<string>
    requires i <= |s|
    decreases |s| - i
  {
    if i == |s| then []
    else if IsRunStart(s, delim, i) then [s[i..CSpanEnd(s, delim, i)]] + Runs(s, delim, i + 1)
    else Runs(s, delim, i + 1)
  }

  /** The positions where a strtok scan may resume: the start, just past
      a delimiter it overwrote, or the end of the string. */
  predicate IsResumePoint(s: string, delim: string, p: nat)
  {
    p == 0 || p == |s| || (0 < p <= |s| && s[p - 1] in delim)
  }

  /** One strtok call that resumes at p: None once only delimiters remain,
      otherwise the token and the position just past the delimiter that
      strtok overwrote with a NUL (or the end of the string). */
  function StrTok(s: string, delim: string, p: nat): (r: Option<(string, nat)>)
    requires p <= |s|
    ensures r.None? <==> forall k :: p <= k < |s| ==> s[k] in delim
    ensures r.Some? ==> p < r.value.1 <= |s| && IsResumePoint(s, delim, r.value.1)
    ensures r.Some? ==> |r.value.0| > 0 && forall c :: c in r.value.0 ==> c !in delim
  {
    var start := SpanEnd(s, delim, p);
    if start == |s| then None
    else
      var end := CSpanEnd(s, delim, start);
      Some((s[start..end], if end < |s| then end + 1 else end))
  }

  /** Positions that begin no run can be skipped. */
  lemma {:induction false} RunsSkip(s: string, delim: string, p: nat, q: nat)
    requires p <= q <= |s|
    requires forall k :: p <= k < q ==> !IsRunStart(s, delim, k)
    ensures Runs(s, delim, p) == Runs(s, delim, q)
    decreases q - p
  {
    if p < q {
      RunsSkip(s, delim, p + 1, q);
    }
  }

  /** From a resume point, one strtok call yields exactly the next run. */
  lemma RunsAtResumePoint(s: string, delim: string, p: nat)
    requires p <= |s| && IsResumePoint(s, delim, p)
    ensures StrTok(s, delim, p).None? ==> Runs(s, delim, p) == []
    ensures StrTok(s, delim, p).Some? ==>
              Runs(s, delim, p) == [StrTok(s, delim, p).value.0] + Runs(s, delim, StrTok(s, delim, p).value.1)
  {
    var start := SpanEnd(s, delim, p);
    RunsSkip(s, delim, p, start);
    if start < |s| {
      var end := CSpanEnd(s, delim, start);
      assert IsRunStart(s, delim, start);
      RunsSkip(s, delim, start + 1, end);
      if end < |s| {
        RunsSkip(s, delim, end, end + 1);
      }
    }
  }

  /** Every token of a split is non-empty and holds no delimiter. */
  lemma {:induction false} RunsWellFormed(s: string, delim: string, i: nat)
    requires i <= |s|
    ensures forall k :: 0 <= k < |Runs(s, delim, i)| ==>
              |Runs(s, delim, i)[k]| > 0 && forall c :: c in Runs(s, delim, i)[k] ==> c !in delim
    decreases |s| - i
  {
    if i < |s| {
      RunsWellFormed(s, delim, i + 1);
    }
  }

  /** A split is empty exactly when no run starts at or after i. */
  lemma {:induction false} RunsEmptyIffNoStart(s: string, delim: string, i: nat)
    requires i <= |s|
    ensures Runs(s, delim, i) == [] <==> forall k :: i <= k < |s| ==> !IsRunStart(s, delim, k)
    decreases |s| - i
  {
    if i < |s| {
      RunsEmptyIffNoStart(s, delim, i + 1);
    }
  }

  /** Every non-delimiter character lies in a run that starts at or before it. */
  lemma {:induction false} RunStartBefore(s: string, delim: string, k: nat)
    requires k < |s| && s[k] !in delim
    ensures exists j :: 0 <= j <= k && IsRunStart(s, delim, j)
  {
    if !IsRunStart(s, delim, k) {
      RunStartBefore(s, delim, k - 1);
    }
  }

  /** A line yields no tokens exactly when it is made of delimiters only. */
  lemma RunsEmptyIffAllDelimiters(s: string, delim: string)
    ensures Runs(s, delim, 0) == [] <==> forall k :: 0 <= k < |s| ==> s[k] in delim
  {
    RunsEmptyIffNoStart(s, delim, 0);
    if exists k :: 0 <= k < |s| && s[k] !in delim {
      var k :| 0 <= k < |s| && s[k] !in delim;
      RunStartBefore(s, delim, k);
    }
  }

  /** tokenize: calls strtok until it yields NULL, storing each token in
      order, and returns how many it stored. */
  method Tokenize(str: string, delim: string) returns (argv: seq<string>, count: nat)
    ensures count == |argv|
    ensures argv == Runs(str, delim, 0)
    ensures forall k :: 0 <= k < count ==> |argv[k]| > 0 && forall c :: c in argv[k] ==> c !in delim
  {
    argv := [];
    count := 0;
    var pos: nat := 0;
    var token := StrTok(str, delim, pos);
    while token.Some?
      invariant pos <= |str| && IsResumePoint(str, delim, pos)
      invariant token == StrTok(str, delim, pos)
      invariant count == |argv|
      invariant argv + Runs(str, delim, pos) == Runs(str, delim, 0)
      decreases |str| - pos
    {
      RunsAtResumePoint(str, delim, pos);
      argv := argv + [token.value.0];
      count := count + 1;
      pos := token.value.1;
      token := StrTok(str, delim, pos);
    }
    RunsAtResumePoint(str, delim, pos);
    RunsWellFormed(str, delim, 0);
  }

  // ---------------------------------------------------------------------
  // Decimal rendering (printf "%d")
  // ---------------------------------------------------------------------

  predicate IsDigit(c: char)
  {
    '0' <= c <= '9'
  }

  function DigitChar(d: nat): (c: char)
    requires d < 10
    ensures IsDigit(c)
  {
    ('0' as int + d) as char
  }

  /** The decimal digits of n, most significant first, with no leading zero. */
  function Digits(n: nat): (s: string)
    ensures |s| > 0 && forall k :: 0 <= k < |s| ==> IsDigit(s[k])
    ensures |s| > 1 ==> s[0] != '0'
  {
    if n < 10 then [DigitChar(n)] else Digits(n / 10) + [DigitChar(n % 10)]
  }

  /** The value of a string of decimal digits. */
  function DigitsValue(s: string): nat
    requires forall k :: 0 <= k < |s| ==> IsDigit(s[k])
  {
    if |s| == 0 then 0
    else
      assert IsDigit(s[|s| - 1]);
      10 * DigitsValue(s[..|s| - 1]) + (s[|s| - 1] as int - '0' as int)
  }

  /** The text printf "%d" produces for n. */
  function FormatInt(n: int): string
  {
    if n < 0 then "-" + Digits(-n) else Digits(n)
  }

  /** Reads back the text FormatInt produces. */
  function ParseInt(s: string): Option<int>
  {
    if |s| > 0 && s[0] == '-' && |s| > 1 && forall k :: 1 <= k < |s| ==> IsDigit(s[k]) then
      var v: int := -(DigitsValue(s[1..]) as int);
      Some(v)
    else if |s| > 0 && forall k :: 0 <= k < |s| ==> IsDigit(s[k]) then
      Some(DigitsValue(s))
    else None
  }

  lemma {:induction false} DigitsRoundTrip(n: nat)
    ensures DigitsValue(Digits(n)) == n
  {
    if n >= 10 {
      DigitsRoundTrip(n / 10);
      var s := Digits(n);
      assert s[..|s| - 1] == Digits(n / 10);
    }
  }

  /** A printed number reads back as the number printed. */
  lemma FormatIntRoundTrip(n: int)
    ensures ParseInt(FormatInt(n)) == Some(n)
  {
    if n < 0 {
      DigitsRoundTrip(-n);
      assert FormatInt(n)[1..] == Digits(-n);
    } else {
      DigitsRoundTrip(n);
    }
  }
}

=== FILE: wrappers.dfy ===
/** Small failure-compatible helper used for OS results that may be absent. */
module Wrappers {

  datatype Option<+T> = None | Some(value: T)

  /** The value a map holds for a key, as an Option. */
  function Lookup<K, V>(m: map<K, V>, k: K): (r: Option<V>)
    ensures r.Some? <==> k in m
    ensures r.Some? ==> r.value == m[k]
  {
    if k in m then Some(m[k]) else None
  }
}
